=== FILE: README.md ===
# Sitemap crawler and prompt composer: a Dafny model

This project models the logic of a small crawl-to-index pipeline. The pipeline reads a website's
sitemap, fetches every page it lists, extracts the text of the page's content elements, and
upserts that text into a vector collection keyed by URL. Separately, it turns a user prompt plus
the documents of a similarity search into one combined prompt for a text generator. A helper
script also concatenates a directory's Python sources into one text file.

Every foreign call becomes an input, and the network, the XML and HTML parsers, the vector store
and the generator do no work of their own:

- **Sitemap fetch.** `fetch_sitemap` is a `Crawl.SitemapFetch`. It either failed with a
  RequestException, or returned the document text together with its parsed elements.
- **Page tasks.** The i-th page task meets `attempts(i)`. This is its GET outcome (failed, or the
  page's elements with their CSS classes and texts) and the store's answer to its upsert
  (accepted, UniqueConstraintError, or any other exception).
- **Vector collection.** It is a `map<string, Record>` from id to (document, metadata url).
- **Log.** It is a list of `Logging.LogEvent`s.
- **Directory.** For the concatenation script it is a flag for whether the directory exists, the
  README.md content if there is one, and the `os.listdir` entries in order. A file's content is the
  text `infile.read()` returns in text mode, not its bytes.

Modules follow the pipeline:

- `Wrappers`: the `Option` type, standing for Python's `None`.
- `Logging`: the events the scripts log, with their levels.
- `PySlice`: Python's `xs[:stop]`.
- `Sitemap`: `<loc>` selection and the `max_urls` cap.
- `Extract`: class selection and the `' '` join.
- `Indexer`: `save_to_chromadb`.
- `Crawl`: `fetch_and_save_html` and the two `main` drivers.
- `Compose`: the combined prompt of query.py and write.py.
- `Concat`: `concatenate_py_files`.

## Model

| member | source | states |
|---|---|---|
| `PySlice.Prefix` | SynthSpider.py:80-82 | `urls[:max_urls]` is always a prefix of the list: no longer than it, never reordered |
| `PySlice.PrefixIsTake` | SynthSpider.py:80-82 | a cap M >= 0 yields the first min(K, M) elements, the same as an element-by-element reference definition |
| `PySlice.PrefixIsDropLast` | SynthSpider.py:80-82 | a negative cap -k drops the last k elements, the same as a reference that removes them one by one; nothing is left when k >= K |
| `PySlice.DropLastThenTail` | SynthSpider.py:80-82 | for 0 < k <= K, `xs[:-k] + xs[-k:] == xs` and the kept part has K - k elements |
| `PySlice.PrefixMonotone` | SynthSpider.py:80-82 | among caps of the same sign, a larger cap gives an extension of the smaller cap's result |
| `Sitemap.LocTexts` | SynthSpider.py:74-78 | `findall('.//ns:loc')` never yields more URLs than there are elements, and yields exactly one URL per element precisely when every element is a `<loc>` in the sitemap namespace |
| `Sitemap.LocTextsSound` | SynthSpider.py:74-78 | every selected URL is the text of some element in the sitemap namespace with tag `loc` |
| `Sitemap.LocTextsComplete` | SynthSpider.py:74-78 | every `<loc>` element in the sitemap namespace contributes its text |
| `Sitemap.LocTextsAppend` | SynthSpider.py:78 | selection keeps document order: the URLs of two consecutive document parts are the URLs of the first part followed by those of the second |
| `Sitemap.NoLocNoUrls` | SynthSpider.py:74-78 | a document with no namespaced `<loc>` elements (wrong namespace or other tags) yields no URL rather than an error |
| `Sitemap.ParseSitemap` | SynthSpider.py:57-84 | with `max_urls = None` all `<loc>` texts in document order, duplicates kept; otherwise a prefix of them of length min(K, M) for M >= 0 and max(0, K + M) for M < 0 |
| `Sitemap.ParseSitemapDefault` | main.py:56-83 | with the default argument every `<loc>` text is returned in document order |
| `Sitemap.CapKeepsFirst` | SynthSpider.py:80-82 | a non-negative cap keeps the first M URLs of the sitemap |
| `Sitemap.NegativeCapDropsLast` | SynthSpider.py:80-82 | a negative cap -k drops the last k URLs, and yields no URL at all when k is at least their number |
| `Extract.FindAllByClass` | SynthSpider.py:96-97 | an element is selected exactly when it carries the class; the selection is never longer than the page |
| `Extract.FindAllByClassAppend` | SynthSpider.py:97 | `find_all` keeps document order: the matches of two consecutive parts of a page are the first part's matches followed by the second's |
| `Extract.FindAllByClassMultiplicity` | SynthSpider.py:97 | every occurrence of a matching element is returned, repeated identical elements included, and an element without the class never |
| `Extract.JoinWithSpace` | SynthSpider.py:98 | the joined text starts with the first part; its exact length, its extension by one part, and its inverse under `split(' ')` are the three lemmas below |
| `Extract.ExtractText` | SynthSpider.py:96-98 | a page with no element of the class yields the empty string; otherwise the text is as long as the selected texts plus one space between neighbours |
| `Extract.JoinLength` | SynthSpider.py:98 | `' '.join(parts)` is as long as the parts plus one separator between each neighbouring pair, and 0 for no parts |
| `Extract.JoinSnoc` | SynthSpider.py:98 | joining one more part appends exactly one space and that part |
| `Extract.SplitJoinRoundTrip` | SynthSpider.py:98 | the join is lossless: when no part contains a space, `split(' ')` of the joined text gives back the parts |
| `Logging.LevelOf` | SynthSpider.py:116-123 | a duplicate is logged with `logging.warning`, the content snippet with `logging.info`, and a store or request error with `logging.error` |
| `Indexer.Snippet` | SynthSpider.py:122 | the logged snippet is exactly the first min(200, len(text)) characters of the text |
| `Indexer.SaveToStore` | SynthSpider.py:105-123 | on acceptance `store[url] == (text, url)` with exactly the keys before plus `url`; on UniqueConstraintError a single warning and the store unchanged; on any other exception an error plus an info snippet, store unchanged; every other key untouched; the id-equals-metadata-url invariant is preserved |
| `Indexer.UpsertSize` | SynthSpider.py:110-114 | an accepted save adds an entry only when the url had none |
| `Indexer.UpsertTwice` | SynthSpider.py:110-114 | saving the same url twice leaves one entry holding the second text, the same store as a single save of the second text |
| `Indexer.UpsertsCommute` | SynthSpider.py:110-114 | saves to different urls commute, so the final store does not depend on their completion order |
| `Crawl.PageText` | SynthSpider.py:94-98 | the text saved for a page is empty when no element carries the class `definitions`; otherwise it is as long as the selected texts plus one space between neighbours |
| `Crawl.MakeTasks` | populate.py:32 | one task per selected URL, in URL order and duplicates included, the i-th meeting the i-th attempt outcome; main.py:140 builds the list the same way |
| `Crawl.FetchAndSave` | SynthSpider.py:86-103 | progress ticks exactly when the GET succeeded, even if the store refused; a failed GET logs one page error and leaves the store unchanged; an accepted save stores the extracted text under the url; other urls are untouched |
| `Crawl.Step` | populate.py:28-29 | one unit followed by `update_progress()`, which SynthSpider.py:101 calls only after a successful GET: the count rises by one exactly then, the log is extended and gains a page error exactly on a failed GET, and other urls are untouched |
| `Crawl.RunTasks` | populate.py:28-33 | the final progress is the initial count plus the number of successful GETs (so it never exceeds the task count); the log only grows, with one page error per failed GET; urls outside the tasks are untouched; the id-equals-url invariant is preserved |
| `Crawl.FetchAndSaveCommute` | SynthSpider.py:86-114 | two units for different urls leave the same collection in either order, whatever their fetch and upsert outcomes |
| `Crawl.SwapDistinctTasks` | populate.py:32-33 | `gather` may complete units for different urls in any order: swapping two adjacent such tasks anywhere in the list leaves the final collection and progress count unchanged (the log order may change) |
| `Crawl.LastWriteWins` | SynthSpider.py:100-114 | after a crawl each url holds the text of its last successful, accepted task in task-list order (the fold's completion order); with no such task it is as it was before |
| `Crawl.RecrawlIdempotent` | SynthSpider.py:110-114 | running the same crawl again, against the same outcomes and completing in the same task-list order, leaves the collection unchanged and creates no duplicate |
| `Crawl.FailedFetchIsolated` | SynthSpider.py:91-103 | a RequestException for one URL leaves the collection and the progress count exactly as if that task had not been scheduled, and adds exactly one page error to the log |
| `Crawl.DistinctUrlsAllIndexed` | main.py:139-141 | with distinct URLs, every task whose GET succeeded and whose upsert was accepted is in the collection with its text; the url of every other task is untouched (one failure among N leaves N - 1 indexed) |
| `Crawl.SitemapFalsy` | populate.py:12 | `not sitemap_xml`: an unreachable sitemap (`None`) is falsy, and a fetched one is falsy exactly when its text is empty; main.py:129 tests the same |
| `Crawl.SitemapAbortLog` | SynthSpider.py:53-55 | an abort on a falsy sitemap logs, at error level, the request error exactly when the GET failed, and always ends with "Failed to fetch sitemap." (populate.py:13, main.py:130) |
| `Crawl.Run` | populate.py:11-33 | the abort-or-fan-out logic both drivers share: no task is created exactly when the sitemap is falsy or selects no URL, and then the collection is untouched, there is no bar and the log ends with the abort message; otherwise the collection is exactly what running the created tasks leaves, the bar's total is the task count, its count the successful GETs, and the log has one page error per failed GET |
| `Crawl.Populate` | populate.py:6-35 | a failed or empty sitemap, or an empty URL list, aborts with its log and no task or store change. Otherwise `--n` passes unchanged as `max_urls`, one task is created per selected URL (duplicates included), the collection is exactly what running those tasks leaves, and the bar's total is the URL count, with the count equal to the successful GETs |
| `Crawl.CrawlMain` | main.py:123-142 | the same abort rules; otherwise one task per `<loc>` URL of the whole sitemap, no progress bar, the collection exactly what running those tasks leaves, one logged page error per failed GET, and urls outside the sitemap untouched |
| `Crawl.PopulatePagesSaved` | populate.py:6-8 | the driver saves the pages: after a run that did not abort, each url holds the text of its last successful, accepted task in task-list order, and a url without one is untouched |
| `Crawl.PopulateAsWritten` | populate.py:1-33 | as written, both abort branches raise NameError before logging their message, and the log holds only what the sitemap fetch logged; a run that does not abort returns normally with exactly the corrected driver's report |
| `Crawl.UnreachableSitemapRaises` | populate.py:11-14 | for an unreachable sitemap the code as written raises, whereas the corrected driver logs "Failed to fetch sitemap." and creates no task |
| `Compose.CombinedPrompt` | query.py:84 | the combined prompt starts with the prompt and then a blank line, and has len(prompt) + 2 + Σ(len(d) + 2) characters; write.py:21 is the same expression |
| `Compose.FlattenAppend` | query.py:80-81 | documents are taken outer batch first: the documents of two batch lists are those of the first list followed by those of the second |
| `Compose.FlattenContents` | query.py:80-81 | a document is in the context list exactly when it is in one of the batches; none is filtered out or added |
| `Compose.ContextAppend` | query.py:80-82 | the context of two document lists is the first's context followed by the second's, with no extra separator |
| `Compose.ContextLength` | query.py:82-84 | the context is Σ(len(d) + 2) characters long |
| `Compose.AppendBatch` | query.py:81-82 | the inner loop appends each document of a batch followed by a blank line, in rank order |
| `Compose.ComposePrompt` | query.py:78-84 | the combined prompt is the prompt, a blank line, and every document followed by a blank line in outer-then-inner order, so it has len(prompt) + 2 + Σ(len(d) + 2) characters |
| `Compose.NoDocumentsPrompt` | write.py:16-21 | with no documents (no batches, or only empty ones) the combined prompt is exactly the prompt followed by one blank line |
| `Compose.ExplainXExample` | write.py:15-21 | prompt "Explain X" with documents [["A","B"]] gives "Explain X\n\nA\n\nB\n\n" |
| `Concat.Included` | concat.py:29 | a listed name is processed exactly when it ends in `.py` and is not `concat.py`; README.md never is |
| `Concat.SelectedContents` | concat.py:29 | a listed file is written exactly when its name ends in `.py` and is not `concat.py`, so README.md is never written a second time |
| `Concat.SelectedAppend` | concat.py:28-29 | the filter keeps listing order |
| `Concat.SelectedMultiplicity` | concat.py:28-29 | an included entry is written as often as it is listed (once, as listed names are distinct), and an excluded one never |
| `Concat.NothingIncluded` | concat.py:28-29 | a listing with no included file contributes no text |
| `Concat.BlocksAppend` | concat.py:28-43 | the blocks of two entry lists are written back to back, with no separator |
| `Concat.BlocksSnoc` | concat.py:28-43 | each further listed entry adds its own block when included and nothing otherwise |
| `Concat.Block` | concat.py:33-43 | a processed file is written as its START line, then its content as `infile.read()` returned it, then its END line, and nothing else |
| `Concat.BlockFramesContent` | concat.py:33-43 | a block gives its file back: the content sits between the START and END lines, and the file name sits right after the fixed text of each |
| `Concat.WriteEntry` | concat.py:29-43 | one loop iteration extends the output to cover one more listed entry |
| `Concat.WriteListing` | concat.py:28-43 | the loop writes one block per included entry, in listing order, after what was already written |
| `Concat.ReadmePart` | concat.py:17-25 | when README.md exists the output begins with its START line, its content as read, and its END line; otherwise nothing is written for it |
| `Concat.ConcatenatePyFiles` | concat.py:4-47 | a missing directory writes nothing; otherwise the output is the README block (when README.md exists) followed by the included files' blocks in listing order, and starts with the README block when there is one |

## Left out

- HTTP (`requests.get`, `raise_for_status`, `asyncio.to_thread`) is not modelled. Each fetch is an input outcome, and only RequestException is represented, as the source catches only that.
- XML parsing with `ET.fromstring` is not modelled. The input is the document's elements below the root, with namespace, tag and text. Malformed XML, which raises uncaught, is out of scope.
- `Sitemap.ParseSitemap`: an empty `<loc/>` has Python text `None`, which the model writes as a string. In the code, `requests.get(None)` raises MissingSchema, which is a RequestException. The attempt input can express that failure, but the model does not force it.
- HTML parsing with BeautifulSoup/lxml is not modelled. A page is its elements in document order with their classes. Each element's text is taken to be the result of `get_text(strip=True, separator=' ')`, so whitespace stripping inside an element is not modelled.
- Embedding functions, the persistent client, similarity ranking and `search_in_chromadb` are not modelled. The collection is a map, and the search result is the nested `documents` input of the composer.
- `write_article` and `generate_article` call the OpenAI chat API, which is foreign; the composed prompt is the model's output. Printing of the article is left out.
- `asyncio.gather` concurrency and tqdm rendering are not modelled. The crawl is a sequential fold, and the bar is its (total, count). An exception other than RequestException inside a task would propagate out of `gather`; that is not modelled.
- `Crawl.LastWriteWins`: for a URL the sitemap lists more than once, the model takes task-list order as the completion order. `asyncio.gather` over `asyncio.to_thread` finishes tasks in no fixed order, so which text survives can differ between runs. The result holds for the list order only. For distinct URLs the order does not matter (`Crawl.SwapDistinctTasks`).
- `Crawl.RecrawlIdempotent`: this holds when the second crawl's tasks complete in the same order as the first's. With a URL listed twice, and a different completion order, a recrawl can leave the other text.
- The composition in query.py:78-88 and write.py:15-25 is module-level code outside the `if __name__ == "__main__":` guard. Importing either module raises NameError on `search_results` or `args`. The model treats the composition as a pure function of the prompt and the documents.
- Console output (`print`) and logging formats are left out. Log entries are events, not text.
- chroma.py and search.py are console wrappers around the same store and traversal, and are not part of this model.
- Argument parsing is not modelled beyond passing `--n` (default `None`) to `Crawl.Populate` as `max_urls`.
- `concat.py`'s `try`/`except` around file I/O is not modelled. A failure to open or read a file, such as a directory named `x.py`, is caught there, and the partial output stays. The model assumes every read succeeds. Its log messages are also left out.
- Text-mode newline translation and the locale encoding of `concat.py`'s `open` calls are not modelled. Reading turns `\r\n` and `\r` into `\n`, and writing turns every `\n` into `os.linesep`. A content is taken to be the text `read()` returns, and the output is the text before it is encoded on writing.
- The code sets no explicit concurrency cap; the default executor behind `asyncio.to_thread` bounds the threads, and the model's sequential fold does not represent it. There is no timeout either: `requests.get` at SynthSpider.py:50 and :92 has none, so a server that never answers blocks the crawl, whereas the model assumes every GET ends. There is no retry and no embedding-dimension check.

Points where the code does something a reader might not expect, and which the model follows:

- **Progress.** `update_progress()` is called only after a successful GET (SynthSpider.py:101), not once per completed unit. A failed fetch leaves the bar short of its total.
- **Negative cap.** Nothing rejects a negative `max_urls` (SynthSpider.py:80-82), so Python slicing then drops URLs from the end.
- **Content class.** The class selected is `definitions` (SynthSpider.py:97), although the docstring at SynthSpider.py:88 names `page-content-container`.

## Findings

| source | as written | input that shows it | evidently intended | confidence | as-written member | corrected member |
|---|---|---|---|---|---|---|
| populate.py:1-22 | `main` calls `logging.error` in both abort branches, but populate.py never imports `logging`, so each abort raises NameError instead of logging and returning | an unreachable sitemap (`fetch_sitemap` returns `None`), or a sitemap without `<loc>` entries | log the error and return without creating tasks, as main.py does | high; not executed | `Crawl.PopulateAsWritten` (discrepancy shown by `Crawl.UnreachableSitemapRaises`) | `Crawl.Populate` |

=== FILE: compose.dfy ===
/**
 The Answer Composer: how query.py and write.py turn the nested
 `documents` of a similarity search (outer index = query, inner index = rank)
 and the user's prompt into the prompt sent to the generation capability.
 */
module Compose {

  /** The blank line that follows the prompt and every document. */
  const Separator: string := "\n\n"

  /** Every document, outer batch first, then rank order within a batch. */
  function Flatten(batches: seq<seq<string>>): (docs: seq<string>)
  {
    if batches == [] then [] else batches[0] + Flatten(batches[1..])
  }

  /** `additional_context`: each document followed by a blank line. */
  function Context(docs: seq<string>): string
  {
    if docs == [] then "" else docs[0] + Separator + Context(docs[1..])
  }

  /** Σ (|d| + 2) over the documents. */
  function FramedLength(docs: seq<string>): nat
  {
    if docs == [] then 0 else |docs[0]| + |Separator| + FramedLength(docs[1..])
  }

  /** `args.prompt + "\n\n" + additional_context`. */
  function CombinedPrompt(prompt: string, batches: seq<seq<string>>): (c: string)
    ensures |c| == |prompt| + |Separator| + FramedLength(Flatten(batches))
    ensures c[..|prompt|] == prompt && c[|prompt|..|prompt| + |Separator|] == Separator
  {
    ContextLength(Flatten(batches));
    prompt + Separator + Context(Flatten(batches))
  }

  lemma {:induction false} FlattenAppend(a: seq<seq<string>>, b: seq<seq<string>>)
    ensures Flatten(a + b) == Flatten(a) + Flatten(b)
  {
    if a == [] {
      assert a + b == b;
    } else {
      assert (a + b)[1..] == a[1..] + b;
      FlattenAppend(a[1..], b);
    }
  }

  /** No document is filtered out or moved: the flattened list contains
      exactly the documents of the batches, each batch's in its rank order. */
  lemma {:induction false} FlattenContents(batches: seq<seq<string>>, d: string)
    ensures d in Flatten(batches) <==> exists i :: 0 <= i < |batches| && d in batches[i]
  {
    if batches != [] {
      FlattenContents(batches[1..], d);
      if d in Flatten(batches[1..]) {
        var i :| 0 <= i < |batches[1..]| && d in batches[1..][i];
        assert d in batches[i + 1];
      }
    }
  }

  lemma {:induction false} ContextAppend(a: seq<string>, b: seq<string>)
    ensures Context(a + b) == Context(a) + Context(b)
  {
    if a == [] {
      assert a + b == b;
    } else {
      assert (a + b)[1..] == a[1..] + b;
      ContextAppend(a[1..], b);
    }
  }

  lemma {:induction false} ContextLength(docs: seq<string>)
    ensures |Context(docs)| == FramedLength(docs)
  {
    if docs != [] {
      ContextLength(docs[1..]);
    }
  }

  /** The inner loop over one batch: append each of its documents and a
      blank line, in rank order. */
  method AppendBatch(additional: string, ghost done: seq<string>, batch: seq<string>) returns (extended: string)
    requires additional == Context(done)
    ensures extended == Context(done + batch)
  {
    extended := additional;
    var j := 0;
    assert done + batch[..j] == done;
    while j < |batch|
      invariant 0 <= j <= |batch|
      invariant extended == Context(done + batch[..j])
    {
      ghost var prefix := done + batch[..j];
      ContextAppend(prefix, [batch[j]]);
      assert done + batch[..j + 1] == prefix + [batch[j]];
      assert Context([batch[j]]) == batch[j] + Separator + Context([]);
      extended := extended + batch[j] + Separator;
      j := j + 1;
    }
    assert batch[..j] == batch;
  }

  /** query.py's nested loops: append every document and a blank line to
      `additional_context`, then put the prompt and a blank line in front. */
  method ComposePrompt(prompt: string, batches: seq<seq<string>>) returns (combined: string)
    ensures combined == prompt + Separator + Context(Flatten(batches))
    ensures |combined| == |prompt| + |Separator| + FramedLength(Flatten(batches))
  {
    var additional := "";
    var i := 0;
    while i < |batches|
      invariant 0 <= i <= |batches|
      invariant additional == Context(Flatten(batches[..i]))
    {
      additional := AppendBatch(additional, Flatten(batches[..i]), batches[i]);
      FlattenAppend(batches[..i], [batches[i]]);
      assert batches[..i + 1] == batches[..i] + [batches[i]];
      assert Flatten([batches[i]]) == batches[i] + Flatten([]);
      assert Flatten(batches[..i + 1]) == Flatten(batches[..i]) + batches[i];
      i := i + 1;
    }
    assert batches[..i] == batches;
    ContextLength(Flatten(batches));
    combined := prompt + Separator + additional;
  }

  /** With no documents at all (no batches, or only empty ones) the combined
      prompt is the prompt followed by one blank line. */
  lemma {:induction false} NoDocumentsPrompt(prompt: string, batches: seq<seq<string>>)
    requires forall i :: 0 <= i < |batches| ==> batches[i] == []
    ensures CombinedPrompt(prompt, batches) == prompt + "\n\n"
  {
    if batches != [] {
      NoDocumentsPrompt(prompt, batches[1..]);
      assert Flatten(batches) == [] + Flatten(batches[1..]);
    }
  }

  /** The worked example: prompt "Explain X" with one batch ["A", "B"]. */
  lemma ExplainXExample()
    ensures CombinedPrompt("Explain X", [["A", "B"]]) == "Explain X\n\nA\n\nB\n\n"
  {
  }
}

=== FILE: concat.dfy ===
/**
 `concatenate_py_files(directory, output_file)`: the text written to the
 output file. The file system is an input: whether the directory exists,
 the content of its README.md if there is one, and `os.listdir` as a
 sequence of (name, content) entries in listing order. A content is the
 text `infile.read()` returns, after text-mode newline translation.
 */
module Concat {
  import opened Wrappers

  const ReadmeName: string := "README.md"
  const SelfName: string := "concat.py"
  const PySuffix: string := ".py"

  datatype Entry = Entry(name: string, content: string)

  predicate EndsWith(s: string, suffix: string)
  {
    |suffix| <= |s| && s[|s| - |suffix|..] == suffix
  }

  /** The loop's filter: a `.py` file other than the script itself. */
  predicate Included(name: string)
    ensures Included(name) <==> |name| >= 3 && name[|name| - 3..] == ".py" && name != "concat.py"
    ensures name == ReadmeName ==> !Included(name)
  {
    EndsWith(name, PySuffix) && name != SelfName
  }

  /** The fixed text around the file name in the START and END lines. */
  const StartPrefix: string := "### This is START of the "
  const StartSuffix: string := " file:\n~~~\n"
  const EndPrefix: string := "\n~~~\n### This is END of the file "
  const EndSuffix: string := "!\n\n"

  function StartMarker(name: string): string
  {
    StartPrefix + name + StartSuffix
  }

  function EndMarker(name: string): string
  {
    EndPrefix + name + EndSuffix
  }

  /** One file as written to the output: its content between the START and END lines. */
  function Block(e: Entry): (b: string)
    ensures |b| == |StartMarker(e.name)| + |e.content| + |EndMarker(e.name)|
    ensures b[..|StartMarker(e.name)|] == StartMarker(e.name)
    ensures b[|StartMarker(e.name)|..|b| - |EndMarker(e.name)|] == e.content
    ensures b[|b| - |EndMarker(e.name)|..] == EndMarker(e.name)
  {
    StartMarker(e.name) + e.content + EndMarker(e.name)
  }

  /** The listed entries the loop writes, in listing order. */
  function Selected(listing: seq<Entry>): (files: seq<Entry>)
  {
    if listing == [] then []
    else (if Included(listing[0].name) then [listing[0]] else []) + Selected(listing[1..])
  }

  function Blocks(entries: seq<Entry>): string
  {
    if entries == [] then "" else Block(entries[0]) + Blocks(entries[1..])
  }

  /** The README block, written first when README.md exists. */
  function ReadmePart(readme: Option<string>): (part: string)
    ensures readme.None? ==> part == ""
    ensures readme.Some? ==>
              && |part| == |StartMarker(ReadmeName)| + |readme.value| + |EndMarker(ReadmeName)|
              && part[..|StartMarker(ReadmeName)|] == StartMarker(ReadmeName)
              && part[|StartMarker(ReadmeName)|..|part| - |EndMarker(ReadmeName)|] == readme.value
  {
    if readme.Some? then Block(Entry(ReadmeName, readme.value)) else ""
  }

  /** The filter keeps exactly the included entries, so README.md (not a
      `.py` name) and the script itself are never among them. */
  lemma {:induction false} SelectedContents(listing: seq<Entry>, e: Entry)
    ensures e in Selected(listing) <==> e in listing && Included(e.name)
    ensures e in Selected(listing) ==> e.name != ReadmeName && e.name != SelfName
  {
    if listing != [] {
      SelectedContents(listing[1..], e);
    }
  }

  lemma {:induction false} SelectedAppend(a: seq<Entry>, b: seq<Entry>)
    ensures Selected(a + b) == Selected(a) + Selected(b)
  {
    if a == [] {
      assert a + b == b;
    } else {
      assert (a + b)[1..] == a[1..] + b;
      SelectedAppend(a[1..], b);
    }
  }

  lemma {:induction false} BlocksAppend(a: seq<Entry>, b: seq<Entry>)
    ensures Blocks(a + b) == Blocks(a) + Blocks(b)
  {
    if a == [] {
      assert a + b == b;
    } else {
      assert (a + b)[1..] == a[1..] + b;
      BlocksAppend(a[1..], b);
    }
  }

  /** Each included entry is written as often as it is listed (once, since
      listed names are distinct), and an excluded one never. */
  lemma {:induction false} SelectedMultiplicity(listing: seq<Entry>, e: Entry)
    ensures multiset(Selected(listing))[e] == if Included(e.name) then multiset(listing)[e] else 0
  {
    if listing != [] {
      SelectedMultiplicity(listing[1..], e);
      assert listing == [listing[0]] + listing[1..];
      assert multiset(listing) == multiset([listing[0]]) + multiset(listing[1..]);
    }
  }

  /** A block gives back the file it frames: the content sits between the
      START and END lines, and the name inside both of them. */
  lemma BlockFramesContent(e: Entry)
    ensures var b := Block(e);
            && |b| == |StartMarker(e.name)| + |e.content| + |EndMarker(e.name)|
            && b[|StartMarker(e.name)|..|b| - |EndMarker(e.name)|] == e.content
            && b[|StartPrefix|..|StartPrefix| + |e.name|] == e.name
            && b[|b| - |EndMarker(e.name)| + |EndPrefix|..|b| - |EndSuffix|] == e.name
  {
  }

  /** No included file in the listing means no block is written for it. */
  lemma {:induction false} NothingIncluded(listing: seq<Entry>)
    requires forall i :: 0 <= i < |listing| ==> !Included(listing[i].name)
    ensures Blocks(Selected(listing)) == ""
  {
    if listing != [] {
      NothingIncluded(listing[1..]);
      assert Selected(listing) == Selected(listing[1..]);
    }
  }

  /** One more listed entry adds its block when it is included, and nothing otherwise. */
  lemma BlocksSnoc(listing: seq<Entry>, k: nat)
    requires k < |listing|
    ensures Blocks(Selected(listing[..k + 1]))
         == Blocks(Selected(listing[..k])) + (if Included(listing[k].name) then Block(listing[k]) else "")
  {
    var entry := listing[k];
    SelectedAppend(listing[..k], [entry]);
    assert listing[..k + 1] == listing[..k] + [entry];
    BlocksAppend(Selected(listing[..k]), Selected([entry]));
    if Included(entry.name) {
      assert Blocks(Selected([entry])) == Block(entry) + Blocks([]);
    } else {
      assert Selected([entry]) == [];
    }
  }

  lemma AppendAssoc(a: string, b: string, c: string)
    ensures (a + b) + c == a + (b + c)
  {
  }

  /** One iteration of the loop: write the k-th listed entry's block if it is included. */
  method WriteEntry(out: string, ghost out0: string, listing: seq<Entry>, k: nat) returns (out': string)
    requires k < |listing|
    requires out == out0 + Blocks(Selected(listing[..k]))
    ensures out' == out0 + Blocks(Selected(listing[..k + 1]))
  {
    ghost var before := Blocks(Selected(listing[..k]));
    var added := if Included(listing[k].name) then Block(listing[k]) else "";
    BlocksSnoc(listing, k);
    AppendAssoc(out0, before, added);
    out' := out + added;
  }

  /** The `for filename in os.listdir(directory)` loop: after `out0`, write
      one block per included entry, in listing order. */
  method WriteListing(out0: string, listing: seq<Entry>) returns (out: string)
    ensures out == out0 + Blocks(Selected(listing))
  {
    out := out0;
    var k := 0;
    while k < |listing|
      invariant 0 <= k <= |listing|
      invariant out == out0 + Blocks(Selected(listing[..k]))
    {
      out := WriteEntry(out, out0, listing, k);
      k := k + 1;
    }
    assert listing[..k] == listing;
  }

  /** The whole function: nothing when the directory is missing; otherwise
      the README block (when README.md exists) followed by one block per
      included listed file, in listing order, with nothing in between. */
  method ConcatenatePyFiles(dirExists: bool, readme: Option<string>, listing: seq<Entry>)
    returns (written: Option<string>)
    ensures written.None? <==> !dirExists
    ensures dirExists ==> written.value == ReadmePart(readme) + Blocks(Selected(listing))
    ensures dirExists && readme.Some? ==> Block(Entry(ReadmeName, readme.value)) <= written.value
  {
    if !dirExists {
      return None;
    }
    var out := "";
    if readme.Some? {
      out := StartMarker(ReadmeName) + readme.value + EndMarker(ReadmeName);
    }
    out := WriteListing(out, listing);
    written := Some(out);
  }
}

=== FILE: crawl.dfy ===
/**
 The Crawl Orchestrator: `fetch_and_save_html` for one URL, and the two
 drivers that fan it out over a sitemap (`main` in main.py, `main` in
 populate.py). The network is an input: the sitemap fetch is a
 `SitemapFetch`, and the i-th page task meets the `Attempt` given by
 `attempts(i)` (its GET outcome, and how the store answers its upsert).
 `asyncio.gather` is modelled as a left-to-right fold. Every unit only
 touches the key of its own URL, so for the collection the order matters
 only between tasks that share a URL (`SwapDistinctTasks`); the log, in
 contrast, records the events in the fold's order.
 */
module Crawl {
  import opened Wrappers
  import opened Logging
  import opened Indexer
  import Sitemap
  import Extract

  /** `requests.get(url)` followed by `raise_for_status()`. */
  datatype FetchOutcome = RequestFailed | Fetched(page: seq<Extract.Element>)

  datatype Attempt = Attempt(fetch: FetchOutcome, upsert: UpsertOutcome)

  /** One `fetch_and_save_html(url, ...)` coroutine and the world it meets. */
  datatype Task = Task(url: string, attempt: Attempt)

  datatype UnitResult = UnitResult(store: Store, log: seq<LogEvent>, ticked: bool)

  /** The text a fetched page contributes: its `definitions` elements' texts, space-joined. */
  function PageText(page: seq<Extract.Element>): (text: string)
    ensures (forall e :: e in page ==> Extract.ContentClass !in e.classes) ==> text == ""
    ensures var texts := Extract.Texts(Extract.FindAllByClass(page, Extract.ContentClass));
            |text| == Extract.TotalLength(texts) + (if texts == [] then 0 else |texts| - 1)
  {
    Extract.ExtractText(page, Extract.ContentClass)
  }

  /** The task's fetch succeeded and the store accepted its upsert. */
  predicate Writes(t: Task)
  {
    t.attempt.fetch.Fetched? && t.attempt.upsert.Accepted?
  }

  function WrittenText(t: Task): string
    requires t.attempt.fetch.Fetched?
  {
    PageText(t.attempt.fetch.page)
  }

  /** `fetch_and_save_html`: a failed GET is logged and changes nothing; a
      successful one saves the extracted text and then ticks the progress
      bar, whatever the store did (the save never raises). */
  function FetchAndSave(store: Store, task: Task): (r: UnitResult)
    ensures r.ticked <==> task.attempt.fetch.Fetched?
    ensures task.attempt.fetch.RequestFailed? ==> r.store == store && r.log == [PageRequestError(task.url)]
    ensures Writes(task) ==> task.url in r.store && r.store[task.url] == Record(WrittenText(task), task.url)
    ensures !Writes(task) ==> r.store == store
    ensures forall k :: k != task.url ==> Agree(store, r.store, k)
    ensures PageFailures(r.log) == if task.attempt.fetch.RequestFailed? then 1 else 0
    ensures WellKeyed(store) ==> WellKeyed(r.store)
  {
    match task.attempt.fetch
    case RequestFailed => UnitResult(store, [PageRequestError(task.url)], false)
    case Fetched(page) =>
      var saved := SaveToStore(store, task.url, PageText(page), task.attempt.upsert);
      NoPageFailures(saved.log);
      UnitResult(saved.store, saved.log, true)
  }

  /** The shared state of a crawl: the collection, the log, and the progress bar's count. */
  datatype CrawlState = CrawlState(store: Store, log: seq<LogEvent>, progress: nat)

  /** One unit, followed by `update_progress()` (`pbar.update(1)`) when it ticked. */
  function Step(s: CrawlState, t: Task): (r: CrawlState)
    ensures r.progress == s.progress + (if t.attempt.fetch.Fetched? then 1 else 0)
    ensures |s.log| <= |r.log| && r.log[..|s.log|] == s.log
    ensures PageFailures(r.log) == PageFailures(s.log) + (if t.attempt.fetch.RequestFailed? then 1 else 0)
    ensures forall k :: k != t.url ==> Agree(s.store, r.store, k)
    ensures WellKeyed(s.store) ==> WellKeyed(r.store)
  {
    var u := FetchAndSave(s.store, t);
    PageFailuresAppend(s.log, u.log);
    CrawlState(u.store, s.log + u.log, if u.ticked then s.progress + 1 else s.progress)
  }

  /** How many tasks' GET succeeded. */
  function Successes(tasks: seq<Task>): (n: nat)
    ensures n <= |tasks|
  {
    if tasks == [] then 0
    else (if tasks[0].attempt.fetch.Fetched? then 1 else 0) + Successes(tasks[1..])
  }

  /** The urls the tasks work on. */
  function UrlSet(tasks: seq<Task>): set<string>
  {
    set t | t in tasks :: t.url
  }

  lemma UrlSetCons(tasks: seq<Task>)
    requires tasks != []
    ensures UrlSet(tasks) == {tasks[0].url} + UrlSet(tasks[1..])
  {
  }

  /** `await asyncio.gather(*tasks)`, as a sequential fold. */
  function RunTasks(s: CrawlState, tasks: seq<Task>): (r: CrawlState)
    decreases |tasks|
    ensures r.progress == s.progress + Successes(tasks)
    ensures |s.log| <= |r.log| && r.log[..|s.log|] == s.log
    ensures PageFailures(r.log) == PageFailures(s.log) + (|tasks| - Successes(tasks))
    ensures forall u :: u !in UrlSet(tasks) ==> Agree(s.store, r.store, u)
    ensures WellKeyed(s.store) ==> WellKeyed(r.store)
  {
    if tasks == [] then s
    else
      UrlSetCons(tasks);
      RunTasks(Step(s, tasks[0]), tasks[1..])
  }

  lemma {:induction false} RunTasksAppend(s: CrawlState, a: seq<Task>, b: seq<Task>)
    decreases a
    ensures RunTasks(s, a + b) == RunTasks(RunTasks(s, a), b)
  {
    if a == [] {
      assert a + b == b;
    } else {
      assert (a + b)[0] == a[0];
      assert (a + b)[1..] == a[1..] + b;
      RunTasksAppend(Step(s, a[0]), a[1..], b);
    }
  }

  /** Reference definition of the final content under `u`: the text of the
      last task for `u` whose fetch succeeded and whose upsert was accepted. */
  function LastWrite(tasks: seq<Task>, u: string): Option<string>
  {
    if tasks == [] then None
    else
      var t := tasks[|tasks| - 1];
      if t.url == u && Writes(t) then Some(WrittenText(t)) else LastWrite(tasks[..|tasks| - 1], u)
  }

  /** Last write wins: the crawl leaves under each url the last accepted
      text for it, and leaves the url as it was when no write for it succeeded. */
  lemma {:induction false} LastWriteWins(s: CrawlState, tasks: seq<Task>, u: string)
    ensures LastWrite(tasks, u).Some? ==>
              u in RunTasks(s, tasks).store && RunTasks(s, tasks).store[u] == Record(LastWrite(tasks, u).value, u)
    ensures LastWrite(tasks, u).None? ==> Agree(s.store, RunTasks(s, tasks).store, u)
  {
    if tasks != [] {
      var init, t := tasks[..|tasks| - 1], tasks[|tasks| - 1];
      assert tasks == init + [t];
      LastWriteWins(s, init, u);
      RunSnoc(s, init, t);
      var mid := RunTasks(s, init);
      var unit := FetchAndSave(mid.store, t);
      assert RunTasks(s, tasks).store == unit.store;
      if t.url == u && Writes(t) {
        assert LastWrite(tasks, u) == Some(WrittenText(t));
      } else {
        assert LastWrite(tasks, u) == LastWrite(init, u);
        assert Agree(mid.store, unit.store, u);
      }
    }
  }

  /** The fold over all tasks is the fold over all but the last, then one step. */
  lemma RunSnoc(s: CrawlState, init: seq<Task>, t: Task)
    ensures RunTasks(s, init + [t]) == Step(RunTasks(s, init), t)
  {
    RunTasksAppend(s, init, [t]);
    var mid := RunTasks(s, init);
    assert RunTasks(mid, [t]) == RunTasks(Step(mid, t), []);
  }

  /** Re-running a crawl whose tasks meet the same outcomes changes nothing
      in the collection: upserts keyed by url never duplicate an entry. */
  lemma RecrawlIdempotent(s: CrawlState, tasks: seq<Task>)
    ensures RunTasks(RunTasks(s, tasks), tasks).store == RunTasks(s, tasks).store
  {
    var once := RunTasks(s, tasks);
    var twice := RunTasks(once, tasks);
    forall u
      ensures Agree(once.store, twice.store, u)
    {
      LastWriteWins(s, tasks, u);
      LastWriteWins(once, tasks, u);
    }
    AgreeEverywhere(once.store, twice.store);
  }

  lemma {:induction false} StoreIgnoresLog(s1: CrawlState, s2: CrawlState, tasks: seq<Task>)
    requires s1.store == s2.store && s1.progress == s2.progress
    decreases tasks
    ensures RunTasks(s1, tasks).store == RunTasks(s2, tasks).store
  {
    if tasks != [] {
      StoreIgnoresLog(Step(s1, tasks[0]), Step(s2, tasks[0]), tasks[1..]);
    }
  }

  /** A RequestException for one URL is isolated: the collection and the
      progress count end as if that task had not been scheduled at all,
      and the log holds exactly one more page failure. */
  lemma FailedFetchIsolated(s: CrawlState, before: seq<Task>, t: Task, after: seq<Task>)
    requires t.attempt.fetch.RequestFailed?
    ensures RunTasks(s, before + [t] + after).store == RunTasks(s, before + after).store
    ensures RunTasks(s, before + [t] + after).progress == RunTasks(s, before + after).progress
    ensures PageFailures(RunTasks(s, before + [t] + after).log) == PageFailures(RunTasks(s, before + after).log) + 1
  {
    RunTasksAppend(s, before + [t], after);
    RunSnoc(s, before, t);
    RunTasksAppend(s, before, after);
    StoreIgnoresLog(Step(RunTasks(s, before), t), RunTasks(s, before), after);
  }

  /** Units for different urls commute on the collection. */
  lemma FetchAndSaveCommute(store: Store, t1: Task, t2: Task)
    requires t1.url != t2.url
    ensures FetchAndSave(FetchAndSave(store, t1).store, t2).store
         == FetchAndSave(FetchAndSave(store, t2).store, t1).store
  {
  }

  lemma OneThenOne(s: CrawlState, t1: Task, t2: Task)
    ensures RunTasks(s, [t1, t2]).store == FetchAndSave(FetchAndSave(s.store, t1).store, t2).store
    ensures RunTasks(s, [t1, t2]).progress == Step(Step(s, t1), t2).progress
  {
    var s1 := Step(s, t1);
    assert [t1, t2][1..] == [t2];
    assert RunTasks(s, [t1, t2]) == RunTasks(s1, [t2]);
    assert RunTasks(s1, [t2]) == RunTasks(Step(s1, t2), []);
  }

  /** Two adjacent units for different urls, in either order. */
  lemma SwapPair(s: CrawlState, t1: Task, t2: Task)
    requires t1.url != t2.url
    ensures RunTasks(s, [t1, t2]).store == RunTasks(s, [t2, t1]).store
    ensures RunTasks(s, [t1, t2]).progress == RunTasks(s, [t2, t1]).progress
  {
    OneThenOne(s, t1, t2);
    OneThenOne(s, t2, t1);
    FetchAndSaveCommute(s.store, t1, t2);
  }

  /** `gather` may complete two units for different urls in either order:
      swapping them leaves the collection and the progress count unchanged
      (only the order of their log events differs). */
  lemma SwapDistinctTasks(s: CrawlState, before: seq<Task>, t1: Task, t2: Task, after: seq<Task>)
    requires t1.url != t2.url
    ensures RunTasks(s, before + [t1, t2] + after).store == RunTasks(s, before + [t2, t1] + after).store
    ensures RunTasks(s, before + [t1, t2] + after).progress == RunTasks(s, before + [t2, t1] + after).progress
  {
    var mid := RunTasks(s, before);
    assert before + [t1, t2] + after == before + ([t1, t2] + after);
    assert before + [t2, t1] + after == before + ([t2, t1] + after);
    RunTasksAppend(s, before, [t1, t2] + after);
    RunTasksAppend(s, before, [t2, t1] + after);
    RunTasksAppend(mid, [t1, t2], after);
    RunTasksAppend(mid, [t2, t1], after);
    SwapPair(mid, t1, t2);
    StoreIgnoresLog(RunTasks(mid, [t1, t2]), RunTasks(mid, [t2, t1]), after);
  }

  predicate DistinctUrls(tasks: seq<Task>)
  {
    forall a, b :: 0 <= a < b < |tasks| ==> tasks[a].url != tasks[b].url
  }

  lemma {:induction false} LastWriteUntouched(tasks: seq<Task>, u: string)
    requires forall i :: 0 <= i < |tasks| ==> tasks[i].url != u
    ensures LastWrite(tasks, u) == None
  {
    if tasks != [] {
      LastWriteUntouched(tasks[..|tasks| - 1], u);
    }
  }

  lemma {:induction false} LastWriteOfDistinct(tasks: seq<Task>, j: nat)
    requires DistinctUrls(tasks) && j < |tasks|
    ensures LastWrite(tasks, tasks[j].url) == if Writes(tasks[j]) then Some(WrittenText(tasks[j])) else None
  {
    var init := tasks[..|tasks| - 1];
    if j == |tasks| - 1 {
      if !Writes(tasks[j]) {
        LastWriteUntouched(init, tasks[j].url);
      }
    } else {
      assert tasks[j] == init[j];
      LastWriteOfDistinct(init, j);
    }
  }

  /** With distinct urls, every task whose fetch succeeded and whose upsert
      was accepted is in the collection, and every other task's url is
      untouched: one failed fetch among N leaves the other N - 1 indexed. */
  lemma DistinctUrlsAllIndexed(s: CrawlState, tasks: seq<Task>, j: nat)
    requires DistinctUrls(tasks) && j < |tasks|
    ensures Writes(tasks[j]) ==>
              && tasks[j].url in RunTasks(s, tasks).store
              && RunTasks(s, tasks).store[tasks[j].url] == Record(WrittenText(tasks[j]), tasks[j].url)
    ensures !Writes(tasks[j]) ==> Agree(s.store, RunTasks(s, tasks).store, tasks[j].url)
  {
    LastWriteOfDistinct(tasks, j);
    LastWriteWins(s, tasks, tasks[j].url);
  }

  /** What `fetch_sitemap` produced: a RequestException, or the document's
      text together with its parsed elements. */
  datatype SitemapFetch = SitemapRequestFailed | SitemapFetched(xml: string, elements: seq<Sitemap.XmlElement>)

  /** The tqdm bar: its total and how often it was updated. */
  datatype Progress = Progress(total: nat, count: nat)

  /** Everything a driver run leaves behind: the collection, the log, the
      tasks it created, and its progress bar (if it made one). */
  datatype Report = Report(store: Store, log: seq<LogEvent>, tasks: seq<Task>, bar: Option<Progress>)

  /** `not sitemap_xml`: the fetch returned None or an empty document. */
  predicate SitemapFalsy(sitemap: SitemapFetch)
    ensures sitemap.SitemapRequestFailed? ==> SitemapFalsy(sitemap)
    ensures sitemap.SitemapFetched? ==> (SitemapFalsy(sitemap) <==> |sitemap.xml| == 0)
  {
    sitemap.SitemapRequestFailed? || sitemap.xml == ""
  }

  /** What an abort on a falsy sitemap logs: the request error from
      `fetch_sitemap` if there was one, then "Failed to fetch sitemap.". */
  function SitemapAbortLog(sitemap: SitemapFetch): (log: seq<LogEvent>)
    ensures 1 <= |log| <= 2 && log[|log| - 1] == SitemapMissing
    ensures SitemapRequestError in log <==> sitemap.SitemapRequestFailed?
    ensures forall i :: 0 <= i < |log| ==> LevelOf(log[i]) == Error
    ensures PageFailures(log) == 0
  {
    if sitemap.SitemapRequestFailed? then [SitemapRequestError, SitemapMissing] else [SitemapMissing]
  }

  /** `[fetch_and_save_html(url, ...) for url in urls]`: one task per URL, duplicates included. */
  function MakeTasks(urls: seq<string>, attempts: nat -> Attempt): (tasks: seq<Task>)
    ensures |tasks| == |urls|
    ensures forall i :: 0 <= i < |urls| ==> tasks[i] == Task(urls[i], attempts(i))
  {
    seq(|urls|, i requires 0 <= i < |urls| => Task(urls[i], attempts(i)))
  }

  /** The driver both entry points share: abort on a falsy sitemap or an
      empty URL list, otherwise run one task per selected URL under a
      progress bar whose total is the number of URLs. */
  function Run(sitemap: SitemapFetch, maxUrls: Option<int>, store: Store, attempts: nat -> Attempt): (r: Report)
    ensures r.tasks == [] <==> SitemapFalsy(sitemap) || Sitemap.ParseSitemap(sitemap.elements, maxUrls) == []
    ensures r.tasks == [] ==> r.store == store && r.bar.None? && r.log != [] && r.log[|r.log| - 1] in {SitemapMissing, NoUrlsFound}
    ensures r.tasks != [] ==> r.bar == Some(Progress(|r.tasks|, Successes(r.tasks)))
    ensures r.tasks != [] ==> PageFailures(r.log) == |r.tasks| - Successes(r.tasks)
    ensures r.tasks != [] ==> r.store == RunTasks(CrawlState(store, [], 0), r.tasks).store
    ensures WellKeyed(store) ==> WellKeyed(r.store)
  {
    if SitemapFalsy(sitemap) then Report(store, SitemapAbortLog(sitemap), [], None)
    else
      var urls := Sitemap.ParseSitemap(sitemap.elements, maxUrls);
      if urls == [] then Report(store, [NoUrlsFound], [], None)
      else
        var tasks := MakeTasks(urls, attempts);
        var r := RunTasks(CrawlState(store, [], 0), tasks);
        Report(r.store, r.log, tasks, Some(Progress(|urls|, r.progress)))
  }

  /** `main(sitemap_url, n)` of populate.py, with its abort branches logging
      and returning (see `PopulateAsWritten` for the code as it stands). */
  function Populate(sitemap: SitemapFetch, n: Option<int>, store: Store, attempts: nat -> Attempt): (r: Report)
    ensures SitemapFalsy(sitemap) ==> r == Report(store, SitemapAbortLog(sitemap), [], None)
    ensures !SitemapFalsy(sitemap) && Sitemap.ParseSitemap(sitemap.elements, n) == [] ==>
              r == Report(store, [NoUrlsFound], [], None)
    ensures !SitemapFalsy(sitemap) && Sitemap.ParseSitemap(sitemap.elements, n) != [] ==>
              var urls := Sitemap.ParseSitemap(sitemap.elements, n);
              && |r.tasks| == |urls|
              && (forall i :: 0 <= i < |urls| ==> r.tasks[i].url == urls[i] && r.tasks[i].attempt == attempts(i))
              && r.bar == Some(Progress(|urls|, Successes(r.tasks)))
              && r.bar.value.count <= r.bar.value.total
              && PageFailures(r.log) == |urls| - Successes(r.tasks)
              && r.store == RunTasks(CrawlState(store, [], 0), r.tasks).store
              && (forall u :: u !in urls ==> Agree(store, r.store, u))
    ensures WellKeyed(store) ==> WellKeyed(r.store)
  {
    Run(sitemap, n, store, attempts)
  }

  /** The populate driver saves the pages: after a run that did not abort,
      each url holds the text of its last successful, accepted task (in
      task-list order), and every url without such a task is untouched. */
  lemma PopulatePagesSaved(sitemap: SitemapFetch, n: Option<int>, store: Store, attempts: nat -> Attempt, u: string)
    ensures var r := Populate(sitemap, n, store, attempts);
            && (LastWrite(r.tasks, u).Some? ==> u in r.store && r.store[u] == Record(LastWrite(r.tasks, u).value, u))
            && (LastWrite(r.tasks, u).None? ==> Agree(store, r.store, u))
  {
    var r := Populate(sitemap, n, store, attempts);
    if r.tasks != [] {
      LastWriteWins(CrawlState(store, [], 0), r.tasks, u);
    }
  }

  /** `main(sitemap_url)` of main.py: every `<loc>` URL, no progress bar. */
  function CrawlMain(sitemap: SitemapFetch, store: Store, attempts: nat -> Attempt): (r: Report)
    ensures r.bar.None?
    ensures SitemapFalsy(sitemap) ==> r == Report(store, SitemapAbortLog(sitemap), [], None)
    ensures !SitemapFalsy(sitemap) && Sitemap.LocTexts(sitemap.elements) == [] ==>
              r == Report(store, [NoUrlsFound], [], None)
    ensures !SitemapFalsy(sitemap) ==>
              var urls := Sitemap.LocTexts(sitemap.elements);
              && |r.tasks| == |urls|
              && (forall i :: 0 <= i < |urls| ==> r.tasks[i].url == urls[i] && r.tasks[i].attempt == attempts(i))
              && PageFailures(r.log) == |urls| - Successes(r.tasks)
              && r.store == RunTasks(CrawlState(store, [], 0), r.tasks).store
              && (forall u :: u !in urls ==> Agree(store, r.store, u))
    ensures WellKeyed(store) ==> WellKeyed(r.store)
  {
    Run(sitemap, None, store, attempts).(bar := None)
  }

  /** How populate.py's `main` ends as written: normally, or with the
      NameError its abort branches raise because the module never imports
      `logging`; the log then holds only what SynthSpider logged. */
  datatype Exit = Returned(report: Report) | RaisedNameError(store: Store, log: seq<LogEvent>)

  /** populate.py's `main` exactly as written. */
  function PopulateAsWritten(sitemap: SitemapFetch, n: Option<int>, store: Store, attempts: nat -> Attempt): (r: Exit)
    ensures SitemapFalsy(sitemap) ==>
              r == RaisedNameError(store, if sitemap.SitemapRequestFailed? then [SitemapRequestError] else [])
    ensures !SitemapFalsy(sitemap) && Sitemap.ParseSitemap(sitemap.elements, n) == [] ==>
              r == RaisedNameError(store, [])
    ensures !SitemapFalsy(sitemap) && Sitemap.ParseSitemap(sitemap.elements, n) != [] ==>
              r == Returned(Populate(sitemap, n, store, attempts))
    ensures r.Returned? ==> r.report == Populate(sitemap, n, store, attempts) && r.report.tasks != []
  {
    if SitemapFalsy(sitemap) then
      RaisedNameError(store, if sitemap.SitemapRequestFailed? then [SitemapRequestError] else [])
    else if Sitemap.ParseSitemap(sitemap.elements, n) == [] then RaisedNameError(store, [])
    else Returned(Run(sitemap, n, store, attempts))
  }

  /** The discrepancy on a concrete input: an unreachable sitemap makes the
      code as written raise NameError, where the corrected driver logs
      "Failed to fetch sitemap." and returns without creating a task. */
  lemma UnreachableSitemapRaises()
    ensures var attempts := (i: nat) => Attempt(RequestFailed, Accepted);
            && PopulateAsWritten(SitemapRequestFailed, None, map[], attempts).RaisedNameError?
            && Populate(SitemapRequestFailed, None, map[], attempts).log == [SitemapRequestError, SitemapMissing]
            && Populate(SitemapRequestFailed, None, map[], attempts).tasks == []
  {
  }
}

=== FILE: extract.dfy ===
/**
 The Content Extractor: from a fetched page to the text that gets indexed.
 HTML parsing is not modelled; a page is the sequence of its elements in
 document order, each with its CSS classes and the text `get_text(strip=True,
 separator=' ')` yields for it. Selection is `find_all(class_=...)`, and the
 selected texts are joined with single spaces (`' '.join`).
 */
module Extract {

  /** The class the crawler selects on. */
  const ContentClass: string := "definitions"

  datatype Element = Element(classes: set<string>, text: string)

  /** `find_all(class_=cls)`: the elements carrying class `cls`, in document order. */
  function FindAllByClass(elements: seq<Element>, cls: string): (matched: seq<Element>)
    ensures |matched| <= |elements|
    ensures forall e :: e in matched <==> e in elements && cls in e.classes
  {
    if elements == [] then []
    else (if cls in elements[0].classes then [elements[0]] else []) + FindAllByClass(elements[1..], cls)
  }

  /** Selection keeps document order: the matches of two consecutive parts
      of a page are the first part's matches followed by the second's. */
  lemma {:induction false} FindAllByClassAppend(a: seq<Element>, b: seq<Element>, cls: string)
    ensures FindAllByClass(a + b, cls) == FindAllByClass(a, cls) + FindAllByClass(b, cls)
  {
    if a == [] {
      assert a + b == b;
    } else {
      assert (a + b)[1..] == a[1..] + b;
      FindAllByClassAppend(a[1..], b, cls);
    }
  }

  /** Every occurrence of a matching element is selected, repeated ones
      included, and an element without the class never. */
  lemma {:induction false} FindAllByClassMultiplicity(elements: seq<Element>, cls: string, e: Element)
    ensures multiset(FindAllByClass(elements, cls))[e] == if cls in e.classes then multiset(elements)[e] else 0
  {
    if elements != [] {
      FindAllByClassMultiplicity(elements[1..], cls, e);
      assert elements == [elements[0]] + elements[1..];
      assert multiset(elements) == multiset([elements[0]]) + multiset(elements[1..]);
    }
  }

  function Texts(elements: seq<Element>): (texts: seq<string>)
    ensures |texts| == |elements|
    ensures forall i :: 0 <= i < |elements| ==> texts[i] == elements[i].text
  {
    seq(|elements|, i requires 0 <= i < |elements| => elements[i].text)
  }

  function TotalLength(parts: seq<string>): nat
  {
    if parts == [] then 0 else |parts[0]| + TotalLength(parts[1..])
  }

  /** Python's `' '.join(parts)`. */
  function JoinWithSpace(parts: seq<string>): (s: string)
    ensures parts != [] ==> |parts[0]| <= |s| && s[..|parts[0]|] == parts[0]
  {
    if parts == [] then ""
    else if |parts| == 1 then parts[0]
    else parts[0] + " " + JoinWithSpace(parts[1..])
  }

  /** The text extracted from a page: the space-joined texts of its matching elements. */
  function ExtractText(elements: seq<Element>, cls: string): (text: string)
    ensures (forall e :: e in elements ==> cls !in e.classes) ==> text == ""
    ensures |text| == TotalLength(Texts(FindAllByClass(elements, cls)))
                      + (if FindAllByClass(elements, cls) == [] then 0 else |FindAllByClass(elements, cls)| - 1)
  {
    JoinLength(Texts(FindAllByClass(elements, cls)));
    JoinWithSpace(Texts(FindAllByClass(elements, cls)))
  }

  /** A join is as long as its parts plus one space between each neighbouring pair. */
  lemma {:induction false} JoinLength(parts: seq<string>)
    ensures |JoinWithSpace(parts)| == TotalLength(parts) + (if parts == [] then 0 else |parts| - 1)
  {
    if |parts| > 1 {
      JoinLength(parts[1..]);
    }
  }

  /** Joining one more part appends a single space and that part. */
  lemma {:induction false} JoinSnoc(parts: seq<string>, p: string)
    requires parts != []
    ensures JoinWithSpace(parts + [p]) == JoinWithSpace(parts) + " " + p
  {
    if |parts| == 1 {
      assert parts + [p] == [parts[0], p];
    } else {
      assert (parts + [p])[1..] == parts[1..] + [p];
      JoinSnoc(parts[1..], p);
    }
  }

  /** Python's `s.split(' ')`: the maximal runs between single spaces, always at least one. */
  function SplitOnSpace(s: string): (parts: seq<string>)
    ensures |parts| >= 1
  {
    if s == [] then [""]
    else if s[0] == ' ' then [""] + SplitOnSpace(s[1..])
    else var rest := SplitOnSpace(s[1..]); [[s[0]] + rest[0]] + rest[1..]
  }

  /** A space-free word followed by a space and more text splits off as one part. */
  lemma {:induction false} SplitWord(w: string, rest: string)
    requires ' ' !in w
    ensures SplitOnSpace(w + " " + rest) == [w] + SplitOnSpace(rest)
    ensures SplitOnSpace(w) == [w]
  {
    if w == [] {
      assert w + " " + rest == [' '] + rest;
      assert ([' '] + rest)[1..] == rest;
    } else {
      assert (w + " " + rest)[1..] == w[1..] + " " + rest;
      assert w == [w[0]] + w[1..];
      SplitWord(w[1..], rest);
    }
  }

  /** The join loses nothing when no part contains a space: splitting recovers the parts. */
  lemma {:induction false} SplitJoinRoundTrip(parts: seq<string>)
    requires parts != []
    requires forall i :: 0 <= i < |parts| ==> ' ' !in parts[i]
    ensures SplitOnSpace(JoinWithSpace(parts)) == parts
  {
    if |parts| == 1 {
      SplitWord(parts[0], "");
    } else {
      SplitJoinRoundTrip(parts[1..]);
      SplitWord(parts[0], JoinWithSpace(parts[1..]));
    }
  }
}

=== FILE: indexer.dfy ===
/**
 The Indexer: `save_to_chromadb(url, html_content)`. The vector collection is
 a map from id to record; embeddings are not modelled. The store's reaction
 to the upsert (accepted, UniqueConstraintError, or any other exception) is an
 input, and the operation itself never fails: both exceptions are logged and
 swallowed, leaving the store as it was.
 */
module Indexer {
  import opened Logging
  import PySlice

  /** How much of the offending text a store error logs. */
  const SnippetLength: nat := 200

  /** What the collection holds for one id: the document and its `{"url": ...}` metadata. */
  datatype Record = Record(document: string, metadataUrl: string)

  type Store = map<string, Record>

  /** How the collection responds to one upsert call. */
  datatype UpsertOutcome = Accepted | UniqueConstraint | OtherFailure(errorType: string)

  datatype Saved = Saved(store: Store, log: seq<LogEvent>)

  /** The collection's invariant: every record's metadata url is its own id. */
  ghost predicate WellKeyed(store: Store)
  {
    forall k :: k in store ==> store[k].metadataUrl == k
  }

  /** `m1` and `m2` hold the same thing (or nothing) under `k`. */
  ghost predicate Agree(m1: Store, m2: Store, k: string)
  {
    (k in m1 <==> k in m2) && (k in m1 ==> m1[k] == m2[k])
  }

  /** Maps that agree under every key are equal. */
  lemma AgreeEverywhere(m1: Store, m2: Store)
    requires forall k :: Agree(m1, m2, k)
    ensures m1 == m2
  {
    assert m1.Keys == m2.Keys by {
      forall k ensures k in m1 <==> k in m2 {
        assert Agree(m1, m2, k);
      }
    }
    forall k | k in m1
      ensures m1[k] == m2[k]
    {
      assert Agree(m1, m2, k);
    }
  }

  /** `html_content[:200]`. */
  function Snippet(text: string): (s: string)
    ensures |s| == if |text| < SnippetLength then |text| else SnippetLength
    ensures s == text[..|s|]
  {
    PySlice.Prefix(text, SnippetLength)
  }

  /** One call of `save_to_chromadb`. */
  function SaveToStore(store: Store, url: string, text: string, outcome: UpsertOutcome): (r: Saved)
    ensures outcome.Accepted? ==> url in r.store && r.store[url] == Record(text, url)
    ensures outcome.Accepted? ==> r.store.Keys == store.Keys + {url} && r.log == []
    ensures !outcome.Accepted? ==> r.store == store
    ensures forall k :: k != url ==> Agree(store, r.store, k)
    ensures outcome.UniqueConstraint? ==> r.log == [DuplicateEntry(url)] && LevelOf(r.log[0]) == Warning
    ensures outcome.OtherFailure? ==>
              && |r.log| == 2
              && r.log[0] == StoreError(url, outcome.errorType)
              && r.log[1].ContentSnippet?
              && |r.log[1].snippet| == (if |text| < SnippetLength then |text| else SnippetLength)
              && r.log[1].snippet == text[..|r.log[1].snippet|]
              && LevelOf(r.log[0]) == Error
    ensures forall i :: 0 <= i < |r.log| ==> !r.log[i].PageRequestError?
    ensures WellKeyed(store) ==> WellKeyed(r.store)
  {
    match outcome
    case Accepted => Saved(store[url := Record(text, url)], [])
    case UniqueConstraint => Saved(store, [DuplicateEntry(url)])
    case OtherFailure(errorType) => Saved(store, [StoreError(url, errorType), ContentSnippet(Snippet(text))])
  }

  /** An accepted save adds an entry only when the url had none: the store
      never holds two entries for one url. */
  lemma UpsertSize(store: Store, url: string, text: string)
    ensures |SaveToStore(store, url, text, Accepted).store| == |store| + (if url in store then 0 else 1)
  {
  }

  /** Saving the same url twice leaves one entry holding the second text,
      exactly as if only the second save had happened. */
  lemma UpsertTwice(store: Store, url: string, first: string, second: string)
    ensures var twice := SaveToStore(SaveToStore(store, url, first, Accepted).store, url, second, Accepted).store;
            && twice == SaveToStore(store, url, second, Accepted).store
            && twice[url] == Record(second, url)
            && |twice| == |store| + (if url in store then 0 else 1)
  {
  }

  /** Saves to different urls commute, so the final store does not depend on their order. */
  lemma UpsertsCommute(store: Store, u1: string, t1: string, o1: UpsertOutcome,
                       u2: string, t2: string, o2: UpsertOutcome)
    requires u1 != u2
    ensures SaveToStore(SaveToStore(store, u1, t1, o1).store, u2, t2, o2).store
         == SaveToStore(SaveToStore(store, u2, t2, o2).store, u1, t1, o1).store
  {
  }
}

=== FILE: logging.dfy ===
/** The log records the crawler emits, as an appended list of events. */
module Logging {

  datatype Level = Info | Warning | Error

  datatype LogEvent =
    | SitemapRequestError               // the sitemap GET raised a RequestException
    | SitemapMissing                    // "Failed to fetch sitemap."
    | NoUrlsFound                       // "No URLs found in sitemap."
    | PageRequestError(url: string)     // a page GET raised a RequestException
    | DuplicateEntry(url: string)       // the store raised UniqueConstraintError
    | StoreError(url: string, errorType: string)
    | ContentSnippet(snippet: string)   // logged after a StoreError

  /** The logging call each event comes from: `logging.warning` for a
      duplicate, `logging.info` for the snippet, `logging.error` otherwise. */
  function LevelOf(e: LogEvent): (level: Level)
    ensures level == Warning <==> e.DuplicateEntry?
    ensures level == Info <==> e.ContentSnippet?
    ensures e.PageRequestError? || e.StoreError? || e.SitemapRequestError? ==> level == Error
  {
    match e
    case DuplicateEntry(_) => Warning
    case ContentSnippet(_) => Info
    case _ => Error
  }

  /** How many page-fetch failures a log records. */
  function PageFailures(log: seq<LogEvent>): nat
  {
    if log == [] then 0
    else (if log[0].PageRequestError? then 1 else 0) + PageFailures(log[1..])
  }

  lemma {:induction false} PageFailuresAppend(a: seq<LogEvent>, b: seq<LogEvent>)
    ensures PageFailures(a + b) == PageFailures(a) + PageFailures(b)
  {
    if a == [] {
      assert a + b == b;
    } else {
      assert (a + b)[1..] == a[1..] + b;
      PageFailuresAppend(a[1..], b);
    }
  }

  lemma {:induction false} NoPageFailures(log: seq<LogEvent>)
    requires forall i :: 0 <= i < |log| ==> !log[i].PageRequestError?
    ensures PageFailures(log) == 0
  {
    if log != [] {
      NoPageFailures(log[1..]);
    }
  }
}

=== FILE: pyslice.dfy ===
/**
 Python's prefix slice `xs[:stop]`, which the crawler uses both to cap the
 sitemap's URL list and to cut the content snippet it logs. A negative
 `stop` counts from the end, and the stop index is clamped to the sequence.
 */
module PySlice {

  /** The stop index Python uses for `xs[:stop]` when `|xs| == len`. */
  function StopIndex(len: nat, stop: int): (k: nat)
    ensures k <= len
  {
    if stop >= 0 then (if stop < len then stop else len)
    else if len + stop < 0 then 0
    else len + stop
  }

  /** `xs[:stop]`: always a prefix of `xs`, never a reordering. */
  function Prefix<T>(xs: seq<T>, stop: int): (r: seq<T>)
    ensures |r| <= |xs|
    ensures r == xs[..|r|]
  {
    xs[..StopIndex(|xs|, stop)]
  }

  /** Reference definition: the first `n` elements, one at a time. */
  function Take<T>(xs: seq<T>, n: nat): seq<T>
  {
    if n == 0 || xs == [] then [] else [xs[0]] + Take(xs[1..], n - 1)
  }

  /** Reference definition: `xs` with its last `k` elements removed, one at a time. */
  function DropLast<T>(xs: seq<T>, k: nat): seq<T>
  {
    if k == 0 || xs == [] then xs else DropLast(xs[..|xs| - 1], k - 1)
  }

  /** A non-negative stop keeps the first `stop` elements (all of them when `stop >= |xs|`). */
  lemma {:induction false} PrefixIsTake<T>(xs: seq<T>, n: nat)
    ensures Prefix(xs, n) == Take(xs, n)
  {
    if n == 0 || xs == [] {
    } else {
      PrefixIsTake(xs[1..], n - 1);
      var k := StopIndex(|xs|, n);
      assert k == StopIndex(|xs[1..]|, n - 1) + 1;
      assert xs[..k] == [xs[0]] + xs[1..][..k - 1];
    }
  }

  /** A negative stop `-k` drops the last `k` elements, leaving nothing when `k >= |xs|`. */
  lemma {:induction false} PrefixIsDropLast<T>(xs: seq<T>, k: nat)
    requires k > 0
    ensures Prefix(xs, -(k as int)) == DropLast(xs, k)
  {
    if xs == [] {
    } else if k == 1 {
      assert DropLast(xs, 1) == DropLast(xs[..|xs| - 1], 0);
    } else {
      PrefixIsDropLast(xs[..|xs| - 1], k - 1);
      assert xs[..|xs| - 1][..StopIndex(|xs| - 1, -(k - 1))] == xs[..StopIndex(|xs|, -(k as int))];
    }
  }

  /** Dropping the last `k` elements and appending them again restores `xs`. */
  lemma DropLastThenTail<T>(xs: seq<T>, k: nat)
    requires 0 < k <= |xs|
    ensures Prefix(xs, -(k as int)) + xs[|xs| - k..] == xs
    ensures |Prefix(xs, -(k as int))| == |xs| - k
  {
  }

  /** Among stops of the same sign, a larger stop never yields a shorter or
      different prefix. (Across signs it can: `xs[:-1]` is longer than `xs[:0]`.) */
  lemma PrefixMonotone<T>(xs: seq<T>, a: int, b: int)
    requires a <= b
    requires a < 0 <==> b < 0
    ensures Prefix(xs, a) <= Prefix(xs, b)
  {
  }
}

=== FILE: sitemap.dfy ===
/**
 The Sitemap Resolver's parsing step: from the elements of a sitemap
 document to the list of page URLs, optionally capped. Parsing the XML text
 itself is not modelled; the input is every element strictly below the
 document root, in document order, with its namespace URI, local tag name
 and text. The selection is the `.//ns:loc` search of the Sitemap protocol 0.9
 (`<urlset><url><loc>...</loc></url></urlset>`).
 */
module Sitemap {
  import opened Wrappers
  import PySlice

  /** The XML namespace of the sitemaps.org protocol, version 0.9. */
  const SitemapNamespace: string := "http://www.sitemaps.org/schemas/sitemap/0.9"
  const LocTag: string := "loc"

  datatype XmlElement = XmlElement(namespace: string, tag: string, text: string)

  /** Matches the path step `ns:loc` with `ns` bound to the sitemap namespace. */
  predicate IsLoc(e: XmlElement)
  {
    e.namespace == SitemapNamespace && e.tag == LocTag
  }

  /** The text of every `<loc>` element, in document order, duplicates kept. */
  function LocTexts(elements: seq<XmlElement>): (urls: seq<string>)
    ensures |urls| <= |elements|
    ensures |urls| == |elements| <==> forall i :: 0 <= i < |elements| ==> IsLoc(elements[i])
  {
    if elements == [] then []
    else (if IsLoc(elements[0]) then [elements[0].text] else []) + LocTexts(elements[1..])
  }

  /** Only `<loc>` elements contribute, each with its own text. */
  lemma {:induction false} LocTextsSound(elements: seq<XmlElement>, u: string)
    requires u in LocTexts(elements)
    ensures exists i :: 0 <= i < |elements| && IsLoc(elements[i]) && elements[i].text == u
  {
    if !(IsLoc(elements[0]) && elements[0].text == u) {
      LocTextsSound(elements[1..], u);
      var i :| 0 <= i < |elements[1..]| && IsLoc(elements[1..][i]) && elements[1..][i].text == u;
      assert elements[i + 1] == elements[1..][i];
    }
  }

  /** Every `<loc>` element contributes its text. */
  lemma {:induction false} LocTextsComplete(elements: seq<XmlElement>, i: nat)
    requires i < |elements| && IsLoc(elements[i])
    ensures elements[i].text in LocTexts(elements)
  {
    if i > 0 {
      LocTextsComplete(elements[1..], i - 1);
    }
  }

  /** Document order: the texts of a concatenation are the concatenated texts. */
  lemma {:induction false} LocTextsAppend(a: seq<XmlElement>, b: seq<XmlElement>)
    ensures LocTexts(a + b) == LocTexts(a) + LocTexts(b)
  {
    if a == [] {
      assert a + b == b;
    } else {
      assert (a + b)[1..] == a[1..] + b;
      LocTextsAppend(a[1..], b);
    }
  }

  /** Elements outside the sitemap namespace, or with another tag, contribute nothing. */
  lemma {:induction false} NoLocNoUrls(elements: seq<XmlElement>)
    requires forall i :: 0 <= i < |elements| ==> !IsLoc(elements[i])
    ensures LocTexts(elements) == []
  {
    if elements != [] {
      NoLocNoUrls(elements[1..]);
    }
  }

  /** `parse_sitemap(sitemap_content, max_urls)`: all `<loc>` texts, cut by
      the Python slice `urls[:max_urls]` unless `max_urls` is `None`. */
  function ParseSitemap(elements: seq<XmlElement>, maxUrls: Option<int>): (urls: seq<string>)
    ensures maxUrls.None? ==> urls == LocTexts(elements)
    ensures |urls| <= |LocTexts(elements)|
    ensures urls == LocTexts(elements)[..|urls|]
    ensures maxUrls.Some? && maxUrls.value >= 0 ==>
              |urls| == if maxUrls.value < |LocTexts(elements)| then maxUrls.value else |LocTexts(elements)|
    ensures maxUrls.Some? && maxUrls.value < 0 ==>
              |urls| == if |LocTexts(elements)| + maxUrls.value < 0 then 0 else |LocTexts(elements)| + maxUrls.value
  {
    var all := LocTexts(elements);
    if maxUrls.None? then all else PySlice.Prefix(all, maxUrls.value)
  }

  /** The variant whose `max_urls` defaults to `None`: every `<loc>` text. */
  function ParseSitemapDefault(elements: seq<XmlElement>): (urls: seq<string>)
    ensures urls == LocTexts(elements)
  {
    ParseSitemap(elements, None)
  }

  /** A cap `M >= 0` keeps the first `M` URLs, as the reference `Take` does. */
  lemma CapKeepsFirst(elements: seq<XmlElement>, m: nat)
    ensures ParseSitemap(elements, Some(m)) == PySlice.Take(LocTexts(elements), m)
  {
    PySlice.PrefixIsTake(LocTexts(elements), m);
  }

  /** A negative cap `-k` drops the last `k` URLs, as the reference `DropLast`
      does, which is every URL when `k` is at least their number. */
  lemma NegativeCapDropsLast(elements: seq<XmlElement>, k: nat)
    requires k > 0
    ensures ParseSitemap(elements, Some(-(k as int))) == PySlice.DropLast(LocTexts(elements), k)
    ensures k >= |LocTexts(elements)| ==> ParseSitemap(elements, Some(-(k as int))) == []
  {
    PySlice.PrefixIsDropLast(LocTexts(elements), k);
  }
}

=== FILE: wrappers.dfy ===
/** Optional values, standing in for Python's `None`. */
module Wrappers {

  datatype Option<+T> = None | Some(value: T)
}
